=== FILE: README.md ===
# tgbot core, modelled in Dafny

A Telegram bot that answers one authorised chat. A message from that chat gets a
prompt ("Выберите действие:") with an inline keyboard of two buttons. Pressing
`get_ip` looks up the public IP address: first from a primary JSON service,
then from a secondary one when the primary is unreachable or answers outside
2xx. Pressing `get_random` draws an integer from a range read from
`RANDOM_MIN` / `RANDOM_MAX`. A button press is acknowledged unless an earlier
platform request is rejected, and the prompt is sent again after each answer.

The model replaces the I/O with plain inputs and describes the three decision
procedures under the glue as pure functions:

- `numerals.dfy` (`Numerals`): decimal text of `i32` values. `ParseI32` follows
  Rust's `str::parse::<i32>`: one optional sign, at least one ASCII digit,
  nothing else, value inside 32 bits. `Show` is the `{}` display. They round-trip.
- `random_numbers.dfy` (`RandomNumbers`): `generate_random_number`. Each bound
  is parsed on its own from an optional setting, falling back to 1 and 100. The
  pair is put in order by swapping. A value is drawn from the closed interval.
  The random source is an arbitrary `entropy: nat` that `Draw` maps onto the
  range, and every value of the range is reachable.
- `ip_lookup.dfy` (`IpLookup`): `get_ip_address` and
  `get_ip_address_alternative`. Each HTTP exchange is `Unreachable` or a
  `Reply(status, body)`. The body is `Malformed`, or `Decoded` with the field the
  stage reads being `Missing`, `NotText` or `Text(s)`. Success is the 2xx class
  (section 15.3 of RFC 9110). `GetIpAddress` is written branch by branch like
  the program. `Classify` is a tagged reading (address or named failure),
  stated outcome by outcome, and the two are proved to agree.
- `bot.dfy` (`Bot`): `create_keyboard`, `message_handler` and
  `callback_handler`. Each handler plans a sequence of platform requests
  (`Send(chat, text, keyboard)` or `Ack(query)`). `Execute` issues the plan
  with `?` semantics: the first request the platform rejects ends the handler
  with an error, and nothing after it is issued. `replies[i] == false` marks
  the i-th request as rejected.
- `options.dfy` (`Options`): the `Option` type.

Behaviour worth noting:

- A 2xx primary reply whose body is not a valid `{"ip": <string>}` does not fall
  back. It returns "Ошибка при обработке ответа" (src/main.rs:53).
- On the secondary service, a non-2xx status gives "Ошибка при альтернативном
  запросе" and a transport error gives "Ошибка соединения с альтернативным
  сервисом" (src/main.rs:103, 107).
- The acknowledgement of a callback is not guaranteed. If sending the reply or
  the prompt fails, `?` returns before `answer_callback_query`
  (`Bot.RejectedReplySkipsAck`, `Bot.RejectedPromptSkipsAck`).

## Model

| member | source | states |
|---|---|---|
| Numerals.ParseI32 | src/main.rs:118-125 | a parsed setting is a 32-bit value; empty text, a lone sign, text with a non-digit after the first character, and overflowing text are rejected; a digit string that fits is read as its decimal value, "+" followed by digits as that value, and "-" followed by digits as the negated value |
| Numerals.Show | src/main.rs:285 | the `{}` display of a number starts with '-' exactly for negatives, followed by decimal digits with no leading zero ("0" alone for zero) |
| Numerals.ParseShow | src/main.rs:118-125 | every 32-bit number displayed and parsed again gives back the same number |
| Numerals.ShowInjective | src/main.rs:285 | distinct 32-bit numbers give distinct texts in the random-number reply |
| RandomNumbers.DefaultTextsParse | src/main.rs:118-125 | the default texts "1" and "100" used for unset variables parse to the default values 1 and 100 |
| RandomNumbers.MinBound | src/main.rs:118-121 | RANDOM_MIN gives its parsed value when it parses as an i32, and 1 when it is unset or unparsable |
| RandomNumbers.MaxBound | src/main.rs:122-125 | RANDOM_MAX gives its parsed value when it parses as an i32, and 100 when it is unset or unparsable |
| RandomNumbers.Normalise | src/main.rs:128 | the normalised pair is ordered and is the input pair unchanged or swapped |
| RandomNumbers.RandomRange | src/main.rs:118-128 | the range is ordered, within i32, and its ends are exactly the two bounds |
| RandomNumbers.Draw | src/main.rs:131 | the drawn value lies in the closed range |
| RandomNumbers.DrawReachesEveryValue | src/main.rs:131 | every value of the closed range can be drawn |
| RandomNumbers.GenerateRandomNumber | src/main.rs:112-132 | the result is an i32 between the two bounds, whichever order the settings give them in |
| RandomNumbers.UnusableSettingsUseDefaults | src/main.rs:118-125 | missing or unparsable settings fall back to 1 and 100 independently; with both unusable every result is in [1, 100] |
| RandomNumbers.NonNumericSettings | src/main.rs:376-390 | settings "abc" and "def" give a number in [1, 100] |
| RandomNumbers.TenToTwenty | src/main.rs:346-371 | settings "10","20" give a number in [10, 20], and so do "20","10" |
| IpLookup.Alternative | src/main.rs:70-109 | the secondary outcome maps to the `origin` string verbatim, or to the message for a missing origin, a malformed body, a non-2xx status or a transport error |
| IpLookup.GetIpAddress | src/main.rs:29-67 | a 2xx primary returns its `ip` verbatim or the primary-body error without consulting the secondary; an unreachable or non-2xx primary returns exactly the secondary's result |
| IpLookup.Classify | src/main.rs:29-109 | each outcome (address or one of five failures) occurs exactly when its condition on the two exchanges holds, and an address comes from the reply that carried it |
| IpLookup.GetIpAddressRendersClassify | src/main.rs:29-109 | the string returned is the rendering of the tagged outcome |
| IpLookup.PrimaryDecidesAlone | src/main.rs:44-54 | when the primary answers 2xx, the secondary exchange has no influence on the result, even with a malformed primary body |
| IpLookup.FailureTextsDistinct | src/main.rs:53-107 | the five failure messages are pairwise distinct |
| Bot.CreateKeyboard | src/main.rs:188-197 | one row of two buttons, whose payloads the dispatcher reads as `get_ip` then `get_random` |
| Bot.Execute | src/main.rs:216-218 | requests are issued in plan order; the first rejected request ends the handler with an error and nothing after it is issued; a normal end means the whole plan was issued and accepted |
| Bot.ExecuteReliable | src/main.rs:264-317 | when the platform accepts every request, the whole plan is issued and the handler ends normally |
| Bot.MessageHandler | src/main.rs:200-223 | a message from another chat produces no request; one from the allowed chat produces exactly the prompt with the keyboard, sent to that chat; the handler fails exactly when that send is rejected |
| Bot.RandomReplyCarriesNumber | src/main.rs:277-287 | the random-number reply carries the drawn number in decimal, which reads back as that number and lies in the configured range |
| Bot.CallbackPlan | src/main.rs:226-321 | a callback without an originating message, from another chat, or without data plans only the acknowledgement; an authorised callback with data plans the reply, the prompt, then the acknowledgement; all sends go to the allowed chat |
| Bot.CallbackHandler | src/main.rs:226-321 | for any platform behaviour: the requests issued are a prefix of the callback's plan, ending just after the first rejected request, or the whole plan on a normal end; sends only reach the allowed chat, at most one acknowledgement is issued and it is then the last request, a normal end implies exactly one acknowledgement, and the handler fails exactly when a planned request is rejected |
| Bot.CallbackAcknowledgedOnceLast | src/main.rs:226-321 | with the platform accepting every request, every callback path ends normally with exactly one acknowledgement as its last request |
| Bot.ReplyTexts | src/main.rs:255-308 | `get_ip` answers "Ваш IP-адрес: " with the lookup result, `get_random` answers "Случайное число: " with the number, anything else answers "Неизвестная команда" |
| Bot.RejectedReplySkipsAck | src/main.rs:264-317 | when sending the reply to an authorised press is rejected, the handler stops with an error and the callback is never acknowledged |
| Bot.RejectedPromptSkipsAck | src/main.rs:265-317 | when the reply is accepted but the prompt after it is rejected, both sends are issued, the handler stops with an error and the callback is never acknowledged |

## Left out

- HTTP itself: client building, the user agent, the two URLs, and JSON decoding by serde. These are foreign library calls. Each exchange is an abstract `Exchange`, and decoding is reduced to what it found in the one field read. A body serde cannot turn into an `IpResponse` is `Malformed` or `Decoded(Missing | NotText)`; both behave the same.
- The teloxide dispatcher, `run`, the ctrl-c handler and tokio scheduling. These are platform plumbing and concurrency. A handler is a function of one event.
- Environment and `.env` loading. `RANDOM_MIN` / `RANDOM_MAX` are parameters; `None` stands for "unset or not valid Unicode", which is when `env::var` fails.
- Startup in `main`: a missing `BOT_TOKEN`, or a `CHAT_ID` that is missing or not an `i64`, aborts the process. The allowed chat id is a parameter, and chat ids are unbounded integers because they are only compared.
- Logging, which has no observable effect.
- The inner `if let Some(ref msg) = cq.message` checks at src/main.rs:264, 284 and 299. They always hold after the gate at lines 230-248, so they are folded away.
- Captions and text of the requests are modelled, but not the Telegram wire format of the keyboard.
- RandomNumbers.Draw: states the range and that every value is reachable, but not that `gen_range` is uniform. The random source is an arbitrary `entropy` argument.
- RandomNumbers.GenerateRandomNumber: the settings are re-read on every call in the program. Here they are arguments, so concurrent changes to the environment are not modelled.

=== FILE: bot.dfy ===
/** The chat-bot front end: the inline keyboard, the authorisation gate and
    the two event handlers, each a pure function from an event to the
    platform requests it issues. */
module Bot {
  import opened Options
  import Numerals
  import RandomNumbers
  import IpLookup

  /** An inline keyboard button: the text shown and the payload echoed back. */
  datatype Button = Button(caption: string, payload: string)

  /** Rows of buttons. */
  type Keyboard = seq<seq<Button>>

  const PROMPT: string := "Выберите действие:"
  const IP_PREFIX: string := "Ваш IP-адрес: "
  const RANDOM_PREFIX: string := "Случайное число: "
  const UNKNOWN_COMMAND: string := "Неизвестная команда"

  /** What a button payload asks for. */
  datatype Action = GetIp | GetRandom | Unknown(data: string)

  function ParseAction(data: string): Action {
    if data == "get_ip" then GetIp
    else if data == "get_random" then GetRandom
    else Unknown(data)
  }

  /** `create_keyboard`: one row of two buttons whose payloads the callback
      handler recognises, address lookup first, random number second. */
  function CreateKeyboard(): (k: Keyboard)
    ensures |k| == 1 && |k[0]| == 2
    ensures ParseAction(k[0][0].payload) == GetIp
    ensures ParseAction(k[0][1].payload) == GetRandom
  {
    [[Button("Получить IP", "get_ip"), Button("Случайное число", "get_random")]]
  }

  /** A platform request: a text message to a chat, optionally carrying a
      keyboard, or the acknowledgement of a callback query. */
  datatype Effect = Send(chat: int, text: string, keyboard: Option<Keyboard>) | Ack(query: string)

  /** How a handler ended: normally, or with a platform error propagated by `?`. */
  datatype Outcome = Done | PlatformError

  /** The requests a handler issued, in order, and how it ended. */
  datatype Handled = Handled(effects: seq<Effect>, outcome: Outcome)

  /** `replies[i]` is false when the platform rejects the i-th request of the
      event; requests beyond the end of `replies` are accepted. */
  predicate Accepted(replies: seq<bool>, i: nat) {
    i >= |replies| || replies[i]
  }

  function Rest(replies: seq<bool>): (r: seq<bool>)
    ensures forall i: nat :: Accepted(r, i) == Accepted(replies, i + 1)
    ensures forall i: nat :: i >= 1 ==> Accepted(replies, i) == Accepted(r, i - 1)
  {
    if replies == [] then [] else replies[1..]
  }

  /** Issues the planned requests in order, each awaited with `?`: the first
      rejected request ends the handler with its error and nothing after it
      is issued. */
  function Execute(plan: seq<Effect>, replies: seq<bool>): (h: Handled)
    ensures h.effects <= plan
    ensures h.outcome == Done ==> h.effects == plan
    ensures h.outcome == PlatformError ==> |h.effects| >= 1 && !Accepted(replies, |h.effects| - 1)
    ensures forall i: nat :: i < |h.effects| - 1 ==> Accepted(replies, i)
    ensures h.outcome == Done ==> forall i: nat :: i < |h.effects| ==> Accepted(replies, i)
  {
    if plan == [] then Handled([], Done)
    else if !Accepted(replies, 0) then Handled([plan[0]], PlatformError)
    else
      var tail := Execute(plan[1..], Rest(replies));
      Handled([plan[0]] + tail.effects, tail.outcome)
  }

  /** When the platform accepts every request, the whole plan is issued. */
  lemma ExecuteReliable(plan: seq<Effect>, replies: seq<bool>)
    requires forall i: nat :: i < |plan| ==> Accepted(replies, i)
    ensures Execute(plan, replies) == Handled(plan, Done)
  {
  }

  /** An incoming message; only the id of its chat matters here. */
  datatype Message = Message(chat: int)

  /** A button press: its query id, the chat of the message the keyboard was
      attached to (if the platform supplied that message) and the payload. */
  datatype CallbackQuery = CallbackQuery(id: string, origin: Option<int>, data: Option<string>)

  /** What the callback handler consults besides the event: the two HTTP
      exchanges of an address lookup, the RANDOM_MIN and RANDOM_MAX settings
      and the random source's contribution. */
  datatype Services = Services(
    primary: IpLookup.Exchange,
    secondary: IpLookup.Exchange,
    randomMin: Option<string>,
    randomMax: Option<string>,
    entropy: nat)

  /** The prompt with the keyboard, sent to `chat`. */
  function Prompt(chat: int): Effect {
    Send(chat, PROMPT, Some(CreateKeyboard()))
  }

  /** `message_handler`: the requests it plans for a message. */
  function MessagePlan(msg: Message, allowed: int): seq<Effect> {
    if msg.chat != allowed then [] else [Prompt(msg.chat)]
  }

  /** `message_handler`: a message from another chat is ignored; one from the
      allowed chat gets the prompt with the keyboard, and the handler fails
      exactly when the platform rejects that message. */
  function MessageHandler(msg: Message, allowed: int, replies: seq<bool>): (h: Handled)
    ensures msg.chat != allowed ==> h == Handled([], Done)
    ensures msg.chat == allowed ==> h.effects == [Send(allowed, PROMPT, Some(CreateKeyboard()))]
    ensures h.outcome == PlatformError <==> msg.chat == allowed && !Accepted(replies, 0)
  {
    Execute(MessagePlan(msg, allowed), replies)
  }

  /** The text answering an action. */
  function Reply(action: Action, services: Services): string {
    match action
    case GetIp => IP_PREFIX + IpLookup.GetIpAddress(services.primary, services.secondary)
    case GetRandom =>
      RANDOM_PREFIX + Numerals.Show(RandomNumbers.GenerateRandomNumber(services.randomMin, services.randomMax, services.entropy))
    case Unknown(_) => UNKNOWN_COMMAND
  }

  /** The number in a random-number reply reads back as the value drawn, and
      that value lies in the range the settings give. */
  lemma RandomReplyCarriesNumber(services: Services)
    ensures var n := RandomNumbers.GenerateRandomNumber(services.randomMin, services.randomMax, services.entropy);
            && Reply(GetRandom, services)[..|RANDOM_PREFIX|] == RANDOM_PREFIX
            && Numerals.ParseI32(Reply(GetRandom, services)[|RANDOM_PREFIX|..]) == Some(n)
            && RandomNumbers.RandomRange(services.randomMin, services.randomMax).Contains(n)
  {
    var n := RandomNumbers.GenerateRandomNumber(services.randomMin, services.randomMax, services.entropy);
    Numerals.ParseShow(n);
    assert Reply(GetRandom, services)[|RANDOM_PREFIX|..] == Numerals.Show(n);
  }

  /** True when the callback passes the authorisation gate. */
  predicate Authorised(cq: CallbackQuery, allowed: int) {
    cq.origin == Some(allowed)
  }

  /** `callback_handler` with every request accepted: a callback without an
      originating message, from another chat or without data is only
      acknowledged; otherwise the reply and the prompt go to the allowed chat
      and the acknowledgement comes last. */
  function CallbackPlan(cq: CallbackQuery, allowed: int, services: Services): (plan: seq<Effect>)
    ensures !Authorised(cq, allowed) || cq.data.None? ==> plan == [Ack(cq.id)]
    ensures Authorised(cq, allowed) && cq.data.Some? ==>
      plan == [Send(allowed, Reply(ParseAction(cq.data.value), services), None), Prompt(allowed), Ack(cq.id)]
    ensures forall i :: 0 <= i < |plan| - 1 ==> plan[i].Send? && plan[i].chat == allowed
    ensures plan[|plan| - 1] == Ack(cq.id)
  {
    match cq.origin
    case None => [Ack(cq.id)]
    case Some(chat) =>
      if chat != allowed then [Ack(cq.id)]
      else
        match cq.data
        case None => [Ack(cq.id)]
        case Some(data) =>
          [Send(chat, Reply(ParseAction(data), services), None), Prompt(chat), Ack(cq.id)]
  }

  function CountAcks(effects: seq<Effect>): nat {
    if effects == [] then 0 else (if effects[0].Ack? then 1 else 0) + CountAcks(effects[1..])
  }

  /** A plan of sends followed by one acknowledgement, or any prefix of it,
      holds at most one acknowledgement, which is then its last request. */
  lemma {:induction false} AcksOfSendsThenAck(plan: seq<Effect>, k: nat)
    requires |plan| >= 1 && plan[|plan| - 1].Ack?
    requires forall i :: 0 <= i < |plan| - 1 ==> plan[i].Send?
    requires k <= |plan|
    ensures CountAcks(plan[..k]) == (if k == |plan| then 1 else 0)
    decreases k
  {
    if k == 0 {
      assert plan[..0] == [];
    } else if |plan| == 1 {
      assert plan[..k] == [plan[0]];
      assert plan[..k][1..] == [];
    } else {
      var p := plan[..k];
      assert p[1..] == plan[1..][..k - 1];
      AcksOfSendsThenAck(plan[1..], k - 1);
    }
  }

  /** `callback_handler`: the requests issued, in order, when the platform
      rejects the requests `replies` marks false. */
  function CallbackHandler(cq: CallbackQuery, allowed: int, services: Services, replies: seq<bool>): (h: Handled)
    ensures h.effects <= CallbackPlan(cq, allowed, services)
    ensures h.outcome == Done ==> h.effects == CallbackPlan(cq, allowed, services)
    ensures h.outcome == PlatformError ==> |h.effects| >= 1 && !Accepted(replies, |h.effects| - 1)
    ensures forall i: nat :: i < |h.effects| - 1 ==> Accepted(replies, i)
    ensures h.outcome == Done <==> forall i: nat :: i < |CallbackPlan(cq, allowed, services)| ==> Accepted(replies, i)
    ensures forall e :: e in h.effects && e.Send? ==> e.chat == allowed
    ensures CountAcks(h.effects) <= 1
    ensures CountAcks(h.effects) == 1 ==> h.effects[|h.effects| - 1] == Ack(cq.id)
    ensures h.outcome == Done ==> CountAcks(h.effects) == 1
    ensures !Authorised(cq, allowed) || cq.data.None? ==> h.effects == [Ack(cq.id)]
  {
    var plan := CallbackPlan(cq, allowed, services);
    var h := Execute(plan, replies);
    AcksOfSendsThenAck(plan, |h.effects|);
    assert plan[..|h.effects|] == h.effects;
    h
  }

  /** Every path through the callback handler ends in exactly one
      acknowledgement when the platform accepts every request; an authorised
      press with data yields the reply, the prompt and the acknowledgement. */
  lemma CallbackAcknowledgedOnceLast(cq: CallbackQuery, allowed: int, services: Services, replies: seq<bool>)
    requires forall i: nat :: i < 3 ==> Accepted(replies, i)
    ensures var h := CallbackHandler(cq, allowed, services, replies);
            && h.outcome == Done
            && CountAcks(h.effects) == 1
            && h.effects[|h.effects| - 1] == Ack(cq.id)
            && (Authorised(cq, allowed) && cq.data.Some? ==>
                h.effects == [Send(allowed, Reply(ParseAction(cq.data.value), services), None), Prompt(allowed), Ack(cq.id)])
  {
    var plan := CallbackPlan(cq, allowed, services);
    ExecuteReliable(plan, replies);
  }

  /** The three replies an authorised press can get. */
  lemma ReplyTexts(services: Services, data: string)
    ensures data == "get_ip" ==>
              Reply(ParseAction(data), services) == IP_PREFIX + IpLookup.GetIpAddress(services.primary, services.secondary)
    ensures data == "get_random" ==>
              Reply(ParseAction(data), services)
              == RANDOM_PREFIX + Numerals.Show(RandomNumbers.GenerateRandomNumber(services.randomMin, services.randomMax, services.entropy))
    ensures data != "get_ip" && data != "get_random" ==> Reply(ParseAction(data), services) == UNKNOWN_COMMAND
  {
  }

  /** Acknowledgement is not guaranteed: when the platform rejects the reply
      to an authorised press, `?` returns before the acknowledgement, so the
      callback is never acknowledged. */
  lemma RejectedReplySkipsAck(cq: CallbackQuery, allowed: int, services: Services, replies: seq<bool>)
    requires Authorised(cq, allowed) && cq.data.Some?
    requires !Accepted(replies, 0)
    ensures var h := CallbackHandler(cq, allowed, services, replies);
            && h.outcome == PlatformError
            && h.effects == [Send(allowed, Reply(ParseAction(cq.data.value), services), None)]
            && CountAcks(h.effects) == 0
  {
  }

  /** The same holds when the reply goes out but the prompt after it is
      rejected: both sends are issued and the acknowledgement is not. */
  lemma RejectedPromptSkipsAck(cq: CallbackQuery, allowed: int, services: Services, replies: seq<bool>)
    requires Authorised(cq, allowed) && cq.data.Some?
    requires Accepted(replies, 0) && !Accepted(replies, 1)
    ensures var h := CallbackHandler(cq, allowed, services, replies);
            && h.outcome == PlatformError
            && h.effects == [Send(allowed, Reply(ParseAction(cq.data.value), services), None), Prompt(allowed)]
            && CountAcks(h.effects) == 0
  {
    var h := CallbackHandler(cq, allowed, services, replies);
    assert h.effects[1..][1..] == [];
  }
}

=== FILE: ip_lookup.dfy ===
/** `get_ip_address` and `get_ip_address_alternative`: the public address
    from a primary JSON service, with a secondary service as fallback. Each
    HTTP exchange is an abstract outcome; the address is, or the failures are
    folded into, one user-visible string. */
module IpLookup {

  /** What decoding found in the field a stage reads (`ip` for the primary,
      `origin` for the secondary). */
  datatype Field = Missing | NotText | Text(value: string)

  /** A response body: not decodable at all, or decoded. */
  datatype Body = Malformed | Decoded(field: Field)

  /** One HTTP exchange: no response (transport error), or a status and body. */
  datatype Exchange = Unreachable | Reply(status: int, body: Body)

  /** The 2xx class (section 15.3 of RFC 9110), what `is_success` tests. */
  predicate IsSuccess(status: int) {
    200 <= status <= 299
  }

  /** A response arrived and its status is in the 2xx class. */
  predicate Succeeded(e: Exchange) {
    e.Reply? && IsSuccess(e.status)
  }

  /** A response arrived and its body decoded with a string in the field read. */
  predicate CarriesText(e: Exchange) {
    e.Reply? && e.body.Decoded? && e.body.field.Text?
  }

  /** The text `CarriesText` promises. */
  function Carried(e: Exchange): string
    requires CarriesText(e)
  {
    e.body.field.value
  }

  /** True when the primary exchange sends the lookup to the secondary. */
  predicate FallsBack(primary: Exchange) {
    !Succeeded(primary)
  }

  /** The ways a lookup can fail, each with its own message. */
  datatype Failure =
    | PrimaryUnreadable     // 2xx primary reply without a decodable `ip` string
    | OriginMissing         // secondary JSON without a top-level `origin` string
    | SecondaryUnreadable   // 2xx secondary reply that is not JSON
    | SecondaryRejected     // secondary reply outside 2xx
    | SecondaryUnreachable  // secondary transport error

  function FailureText(f: Failure): string {
    match f
    case PrimaryUnreadable => "Ошибка при обработке ответа"
    case OriginMissing => "Не удалось получить IP-адрес из ответа"
    case SecondaryUnreadable => "Ошибка при обработке альтернативного ответа"
    case SecondaryRejected => "Ошибка при альтернативном запросе"
    case SecondaryUnreachable => "Ошибка соединения с альтернативным сервисом"
  }

  /** A lookup result kept tagged: an address, or the failure that replaced it. */
  datatype Lookup = Address(ip: string) | Failed(why: Failure)

  /** The string the program returns for a tagged result. */
  function Render(l: Lookup): string {
    match l
    case Address(ip) => ip
    case Failed(f) => FailureText(f)
  }

  /** `get_ip_address_alternative`, written as the program branches. */
  function Alternative(secondary: Exchange): (r: string)
    ensures Succeeded(secondary) && CarriesText(secondary) ==> r == Carried(secondary)
    ensures Succeeded(secondary) && secondary.body.Decoded? && !CarriesText(secondary) ==> r == FailureText(OriginMissing)
    ensures Succeeded(secondary) && secondary.body.Malformed? ==> r == FailureText(SecondaryUnreadable)
    ensures secondary.Reply? && !IsSuccess(secondary.status) ==> r == FailureText(SecondaryRejected)
    ensures secondary.Unreachable? ==> r == FailureText(SecondaryUnreachable)
  {
    match secondary
    case Reply(status, body) =>
      if IsSuccess(status) then
        match body
        case Decoded(field) =>
          (match field
           case Text(ip) => ip
           case _ => "Не удалось получить IP-адрес из ответа")
        case Malformed => "Ошибка при обработке альтернативного ответа"
      else "Ошибка при альтернативном запросе"
    case Unreachable => "Ошибка соединения с альтернативным сервисом"
  }

  /** `get_ip_address`, written as the program branches: the secondary
      exchange only matters when the primary falls back. */
  function GetIpAddress(primary: Exchange, secondary: Exchange): (r: string)
    ensures FallsBack(primary) ==> r == Alternative(secondary)
    ensures Succeeded(primary) && !CarriesText(primary) ==> r == FailureText(PrimaryUnreadable)
    ensures Succeeded(primary) && CarriesText(primary) ==> r == Carried(primary)
  {
    match primary
    case Reply(status, body) =>
      if IsSuccess(status) then
        match body
        case Decoded(Text(ip)) => ip
        case _ => "Ошибка при обработке ответа"
      else Alternative(secondary)
    case Unreachable => Alternative(secondary)
  }

  /** The tagged reading of a lookup, stated per outcome rather than per branch. */
  function Classify(primary: Exchange, secondary: Exchange): (l: Lookup)
    ensures l.Address? <==> (Succeeded(primary) && CarriesText(primary)) || (FallsBack(primary) && Succeeded(secondary) && CarriesText(secondary))
    ensures l.Address? && Succeeded(primary) ==> l.ip == Carried(primary)
    ensures l.Address? && FallsBack(primary) ==> l.ip == Carried(secondary)
    ensures l == Failed(PrimaryUnreadable) <==> Succeeded(primary) && !CarriesText(primary)
    ensures l == Failed(OriginMissing) <==> FallsBack(primary) && Succeeded(secondary) && secondary.body.Decoded? && !CarriesText(secondary)
    ensures l == Failed(SecondaryUnreadable) <==> FallsBack(primary) && Succeeded(secondary) && secondary.body.Malformed?
    ensures l == Failed(SecondaryRejected) <==> FallsBack(primary) && secondary.Reply? && !IsSuccess(secondary.status)
    ensures l == Failed(SecondaryUnreachable) <==> FallsBack(primary) && secondary.Unreachable?
  {
    if !FallsBack(primary) then
      if CarriesText(primary) then Address(Carried(primary)) else Failed(PrimaryUnreadable)
    else if secondary.Unreachable? then Failed(SecondaryUnreachable)
    else if !IsSuccess(secondary.status) then Failed(SecondaryRejected)
    else if secondary.body.Malformed? then Failed(SecondaryUnreadable)
    else if CarriesText(secondary) then Address(Carried(secondary))
    else Failed(OriginMissing)
  }

  /** The program's string is the rendering of the tagged result. */
  lemma GetIpAddressRendersClassify(primary: Exchange, secondary: Exchange)
    ensures GetIpAddress(primary, secondary) == Render(Classify(primary, secondary))
  {
  }

  /** When the primary does not fall back the secondary has no influence, even
      when the primary body is malformed. */
  lemma PrimaryDecidesAlone(primary: Exchange, s1: Exchange, s2: Exchange)
    requires !FallsBack(primary)
    ensures GetIpAddress(primary, s1) == GetIpAddress(primary, s2)
  {
  }

  /** Each failure has its own message. */
  lemma FailureTextsDistinct(f: Failure, g: Failure)
    requires f != g
    ensures FailureText(f) != FailureText(g)
  {
  }
}

=== FILE: numerals.dfy ===
/** Decimal text of 32-bit signed integers: parsing as Rust's `str::parse::<i32>`
    does it, and display as the `{}` format of an `i32` produces it. */
module Numerals {
  import opened Options

  const I32_MIN: int := -0x8000_0000
  const I32_MAX: int := 0x7FFF_FFFF

  predicate IsI32(n: int) {
    I32_MIN <= n <= I32_MAX
  }

  predicate IsDigit(c: char) {
    '0' <= c <= '9'
  }

  predicate AllDigits(s: string) {
    forall i :: 0 <= i < |s| ==> IsDigit(s[i])
  }

  function DigitValue(c: char): (d: nat)
    requires IsDigit(c)
    ensures d < 10
  {
    (c as int) - ('0' as int)
  }

  function DigitChar(d: nat): (c: char)
    requires d < 10
    ensures IsDigit(c) && DigitValue(c) == d
  {
    (('0' as int) + d) as char
  }

  /** The number a string of ASCII digits denotes, most significant digit first. */
  function DigitsValue(s: string): nat
    requires AllDigits(s)
    decreases |s|
  {
    if s == [] then 0 else DigitsValue(s[..|s| - 1]) * 10 + DigitValue(s[|s| - 1])
  }

  /** The shortest decimal digit string of `n`: no leading zero, "0" for zero. */
  function NatDigits(n: nat): (s: string)
    ensures |s| >= 1 && AllDigits(s)
    ensures s[0] == '0' ==> n == 0 && s == "0"
    decreases n
  {
    if n < 10 then [DigitChar(n)] else NatDigits(n / 10) + [DigitChar(n % 10)]
  }

  /** How `{}` formats an integer: a minus sign for negatives, then the digits. */
  function Show(n: int): (s: string)
    ensures |s| >= 1
    ensures s[0] == '-' <==> n < 0
    ensures n >= 0 ==> AllDigits(s)
    ensures n < 0 ==> AllDigits(s[1..]) && |s| >= 2
    ensures n >= 0 && s[0] == '0' ==> s == "0"
    ensures n < 0 ==> s[1] != '0'
  {
    if n < 0 then "-" + NatDigits(-n) else NatDigits(n)
  }

  /** `str::parse::<i32>`: at most one leading sign, then at least one ASCII
      digit and nothing else, and the value must fit in 32 bits; anything
      else (empty text, a lone sign, blanks, overflow) is an error. */
  function ParseI32(s: string): (r: Option<int>)
    ensures r.Some? ==> IsI32(r.value)
    ensures s == [] ==> r.None?
    ensures r.Some? && !IsDigit(s[0]) ==> |s| >= 2 && (s[0] == '-' || s[0] == '+')
    ensures AllDigits(s) && s != [] && DigitsValue(s) <= I32_MAX ==> r == Some(DigitsValue(s))
    ensures AllDigits(s) && s != [] && DigitsValue(s) > I32_MAX ==> r.None?
    ensures r.Some? ==> forall i :: 1 <= i < |s| ==> IsDigit(s[i])
    ensures |s| >= 2 && s[0] == '-' && AllDigits(s[1..]) && DigitsValue(s[1..]) <= -I32_MIN ==> r == Some(-(DigitsValue(s[1..]) as int))
    ensures |s| >= 2 && s[0] == '-' && AllDigits(s[1..]) && DigitsValue(s[1..]) > -I32_MIN ==> r.None?
    ensures |s| >= 2 && s[0] == '+' && AllDigits(s[1..]) ==>
              r == (if DigitsValue(s[1..]) <= I32_MAX then Some(DigitsValue(s[1..]) as int) else None)
  {
    if s == [] then None
    else
      var negative := s[0] == '-';
      var digits := if s[0] == '-' || s[0] == '+' then s[1..] else s;
      if digits == [] || !AllDigits(digits) then None
      else
        var magnitude: int := DigitsValue(digits);
        var v := if negative then -magnitude else magnitude;
        if IsI32(v) then Some(v) else None
  }

  lemma {:induction false} DigitsValueAppend(s: string, c: char)
    requires AllDigits(s) && IsDigit(c)
    ensures AllDigits(s + [c])
    ensures DigitsValue(s + [c]) == DigitsValue(s) * 10 + DigitValue(c)
  {
    var t := s + [c];
    assert t[..|t| - 1] == s;
  }

  /** Reading back the digits of `n` gives `n`. */
  lemma {:induction false} DigitsValueOfNatDigits(n: nat)
    ensures DigitsValue(NatDigits(n)) == n
    decreases n
  {
    if n < 10 {
      assert NatDigits(n) == [DigitChar(n)];
      assert NatDigits(n)[..0] == [];
    } else {
      DigitsValueOfNatDigits(n / 10);
      DigitsValueAppend(NatDigits(n / 10), DigitChar(n % 10));
    }
  }

  /** Every 32-bit integer survives a display-then-parse round trip. */
  lemma ParseShow(n: int)
    requires IsI32(n)
    ensures ParseI32(Show(n)) == Some(n)
  {
    if n < 0 {
      DigitsValueOfNatDigits(-n);
      var s := Show(n);
      assert s[1..] == NatDigits(-n);
    } else {
      DigitsValueOfNatDigits(n);
      assert NatDigits(n)[0] != '-';
    }
  }

  /** Two 32-bit integers with the same display are equal. */
  lemma ShowInjective(a: int, b: int)
    requires IsI32(a) && IsI32(b)
    requires Show(a) == Show(b)
    ensures a == b
  {
    ParseShow(a);
    ParseShow(b);
  }
}

=== FILE: options.dfy ===
/** The optional value used wherever the program works with Rust's `Option`
    or with a `Result` whose error carries no information it looks at. */
module Options {

  datatype Option<+T> = None | Some(value: T) {

    /** The carried value, or `default` when there is none (`unwrap_or`). */
    function GetOr(default: T): (r: T)
      ensures Some? ==> r == value
      ensures None? ==> r == default
    {
      match this
      case Some(v) => v
      case None => default
    }
  }
}

=== FILE: random_numbers.dfy ===
/** `generate_random_number`: two optional settings become a closed integer
    range, and one value is drawn from it. The random source is replaced by an
    arbitrary `entropy` value that the model maps onto the range. */
module RandomNumbers {
  import opened Options
  import opened Numerals

  /** Text used when RANDOM_MIN is unset, and value used when parsing fails. */
  const DEFAULT_MIN_TEXT: string := "1"
  const DEFAULT_MIN: int := 1
  /** Text used when RANDOM_MAX is unset, and value used when parsing fails. */
  const DEFAULT_MAX_TEXT: string := "100"
  const DEFAULT_MAX: int := 100

  /** A closed range `[lo, hi]`. */
  datatype Range = Range(lo: int, hi: int) {
    predicate Contains(v: int) {
      lo <= v <= hi
    }
  }

  lemma DefaultTextsParse()
    ensures ParseI32(DEFAULT_MIN_TEXT) == Some(DEFAULT_MIN)
    ensures ParseI32(DEFAULT_MAX_TEXT) == Some(DEFAULT_MAX)
  {
    assert DEFAULT_MIN_TEXT[..0] == [];
    assert DEFAULT_MAX_TEXT[..2] == "10";
    assert "10"[..1] == "1";
  }

  /** One bound: the setting (None when the variable is unset or not valid
      Unicode) or else the default text, parsed as an `i32`, with the default
      value when that parse fails. */
  function Bound(setting: Option<string>, defaultText: string, default: int): int {
    ParseI32(setting.GetOr(defaultText)).GetOr(default)
  }

  /** The lower bound read from RANDOM_MIN. */
  function MinBound(setting: Option<string>): (b: int)
    ensures IsI32(b)
    ensures setting.None? ==> b == DEFAULT_MIN
    ensures setting.Some? && ParseI32(setting.value).None? ==> b == DEFAULT_MIN
    ensures setting.Some? && ParseI32(setting.value).Some? ==> b == ParseI32(setting.value).value
  {
    DefaultTextsParse();
    Bound(setting, DEFAULT_MIN_TEXT, DEFAULT_MIN)
  }

  /** The upper bound read from RANDOM_MAX. */
  function MaxBound(setting: Option<string>): (b: int)
    ensures IsI32(b)
    ensures setting.None? ==> b == DEFAULT_MAX
    ensures setting.Some? && ParseI32(setting.value).None? ==> b == DEFAULT_MAX
    ensures setting.Some? && ParseI32(setting.value).Some? ==> b == ParseI32(setting.value).value
  {
    DefaultTextsParse();
    Bound(setting, DEFAULT_MAX_TEXT, DEFAULT_MAX)
  }

  /** Puts a pair of bounds in order by swapping them when they are inverted. */
  function Normalise(min: int, max: int): (r: Range)
    ensures r.lo <= r.hi
    ensures (r.lo == min && r.hi == max) || (r.lo == max && r.hi == min)
  {
    if min <= max then Range(min, max) else Range(max, min)
  }

  /** The range a call draws from, for the two settings it reads. */
  function RandomRange(minSetting: Option<string>, maxSetting: Option<string>): (r: Range)
    ensures r.lo <= r.hi && IsI32(r.lo) && IsI32(r.hi)
    ensures {r.lo, r.hi} == {MinBound(minSetting), MaxBound(maxSetting)}
  {
    Normalise(MinBound(minSetting), MaxBound(maxSetting))
  }

  /** The random source's choice in `[lo, hi]`, driven by `entropy`. */
  function Draw(r: Range, entropy: nat): (v: int)
    requires r.lo <= r.hi
    ensures r.Contains(v)
  {
    r.lo + entropy % (r.hi - r.lo + 1)
  }

  /** The draw can produce every value of the range (`Draw` keeps it inside). */
  lemma DrawReachesEveryValue(r: Range, v: int)
    requires r.Contains(v)
    ensures exists entropy: nat :: Draw(r, entropy) == v
  {
    var e: nat := v - r.lo;
    assert Draw(r, e) == v;
  }

  /** `generate_random_number`: a 32-bit value between the two bounds, in
      whichever order the settings give them. */
  function GenerateRandomNumber(minSetting: Option<string>, maxSetting: Option<string>, entropy: nat): (v: int)
    ensures IsI32(v)
    ensures MinBound(minSetting) <= MaxBound(maxSetting) ==> MinBound(minSetting) <= v <= MaxBound(maxSetting)
    ensures MaxBound(maxSetting) < MinBound(minSetting) ==> MaxBound(maxSetting) <= v <= MinBound(minSetting)
  {
    Draw(RandomRange(minSetting, maxSetting), entropy)
  }

  /** A missing or unparsable setting falls back to its default independently
      of the other; with both unusable every result lies in [1, 100]. */
  lemma UnusableSettingsUseDefaults(minSetting: Option<string>, maxSetting: Option<string>, entropy: nat)
    requires minSetting.None? || ParseI32(minSetting.value).None?
    requires maxSetting.None? || ParseI32(maxSetting.value).None?
    ensures RandomRange(minSetting, maxSetting) == Range(DEFAULT_MIN, DEFAULT_MAX)
    ensures DEFAULT_MIN <= GenerateRandomNumber(minSetting, maxSetting, entropy) <= DEFAULT_MAX
  {
  }

  /** Settings "abc" and "def" behave as if neither were set. */
  lemma NonNumericSettings(entropy: nat)
    ensures 1 <= GenerateRandomNumber(Some("abc"), Some("def"), entropy) <= 100
  {
    assert !IsDigit("abc"[0]) && !IsDigit("def"[0]);
    UnusableSettingsUseDefaults(Some("abc"), Some("def"), entropy);
  }

  /** Settings "10" and "20" draw from [10, 20], and so do "20" and "10". */
  lemma TenToTwenty(entropy: nat)
    ensures 10 <= GenerateRandomNumber(Some("10"), Some("20"), entropy) <= 20
    ensures 10 <= GenerateRandomNumber(Some("20"), Some("10"), entropy) <= 20
  {
    assert "10"[..1] == "1" && "1"[..0] == [];
    assert "20"[..1] == "2" && "2"[..0] == [];
    assert ParseI32("10") == Some(10);
    assert ParseI32("20") == Some(20);
  }
}
